=== FILE: README.md ===
# S3 snapshot repository configuration, modelled in Dafny

This project models how the S3 snapshot repository of the Elasticsearch AWS
cloud plugin is constructed (`S3Repository`'s constructor). It takes two tiers of
settings, the repository's own settings and the S3 component's settings, and
turns them into one of two outcomes:

- a validated repository: the arguments of the S3 client and of the
  `S3BlobStore`, the base path inside the bucket, the chunk size and the
  compression flag;
- or the single error that stops construction.

`S3Repository.Resolve` is that decision as one pure function. It is built from
these parts:

- `RepositorySettings`: the settings tiers, as records of typed optional
  values. `None` is a setting that is not set (`null`).
- `RegionAliases`: the explicit `region` setting, or else the legacy
  `cloud.aws.region` alias. The alias is lower-cased and looked up in a fixed
  table. An unknown alias leaves the region unset.
- `ClientSideEncryption`: the client-side encryption decision. A symmetric key
  and a key pair are mutually exclusive. Any key needs 256-bit AES. The result is
  a symmetric AES key when the symmetric key is set, and an RSA key pair
  otherwise. The cryptography runtime (base64 decoder, RSA key factory, X.509 and
  PKCS#8 key parsing, AES key-length policy) is a `Jca` value whose operations
  may fail.
- `BlobPaths`: `base_path` split on `/` into the ordered segments of the root
  path.
- `RepositoryErrors`: the `RepositoryException` causes, plus the unchecked
  failure described below.
- `Ascii`: the lower-casing used for aliases.
- `Wrappers`: `Option` and `Result`.

What the code does, and the model with it:

- An explicit region is used whenever it is set (non-null), even when it is
  the empty string.
- An alias outside the table yields the default region (`null`), without error.
- The key pair is built in Java evaluation order: the RSA key factory, then the
  whole public half (decode, then parse), then the whole private half.
- `max_retries` is any integer; the constructor checks no range.
- Only one half of a key pair (no symmetric key) can end in a failure that is
  not a `RepositoryException`. This happens once the AES check and the RSA key
  factory lookup have passed and, when the public half is the one present,
  its decoding and parsing have passed too. The absent half then reaches
  `Base64.decode` and the key-spec constructor as `null`, and the failure that
  escapes is unchecked (`ConstructionError.IncompleteKeyPair`). The code does
  not guard against this. Before that point the usual `RepositoryException`s
  apply: the JCE error, `NoSuchAlgorithm`, and the key-decoding and
  `InvalidKeySpec` errors of the public half.
- An empty symmetric key decodes to no bytes. `SecretKeySpec` refuses that with
  an `IllegalArgumentException`, which the constructor reports as a key-decoding
  error.

The class comment (line 55) says `chunk_size` defaults to "not chunked"; the
code defaults it to 100 MB, and the model follows the code. The same comment
lists `concurrent_streams`, which this constructor never reads.

## Model

| member | source | states |
|---|---|---|
| `S3Repository.Resolve` | src/main/java/org/elasticsearch/repositories/s3/S3Repository.java:81-203 | Fails with "no bucket" exactly when neither tier sets a bucket. Every `RepositoryException` carries the repository's name. Once a bucket exists, a failure of the encryption decision is the failure reported, and its materials are the ones the client gets. On success, the client and the store get the same region and retry count, and there are encryption materials exactly when some key is set in either tier. |
| `S3Repository.RepositoryTierShadowsComponent` | src/main/java/org/elasticsearch/repositories/s3/S3Repository.java:84-170 | Two component tiers that differ only in settings the repository sets give the same outcome. Credentials and `base_path` are not read from the component, so differences there do not matter either. |
| `S3Repository.Precedence` | src/main/java/org/elasticsearch/repositories/s3/S3Repository.java:84-193 | Bucket, the three client-side encryption keys, endpoint, protocol, buffer size and the typed settings take the repository's value when it is set, and the component's otherwise. `access_key`, `secret_key` and `base_path` come from the repository alone. |
| `S3Repository.NodeSettingsOnlyGiveRegionAlias` | src/main/java/org/elasticsearch/repositories/s3/S3Repository.java:138-176 | The node's settings reach the blob store unchanged (line 176); apart from that, with the component tier held fixed, two node tiers with the same `cloud.aws.region` give the same outcome. |
| `S3Repository.Defaults` | src/main/java/org/elasticsearch/repositories/s3/S3Repository.java:166-170 | When neither tier sets them: server-side encryption is off, the buffer size is unset, retries are 3, the chunk size is 100 MB (104857600 bytes) and compression is off. |
| `S3Repository.RegionSelection` | src/main/java/org/elasticsearch/repositories/s3/S3Repository.java:135-163 | An explicit region (repository first, then component) is passed on verbatim. Otherwise the repository's alias, then the node's, goes through the alias table. With neither, the region is unset. |
| `S3Repository.KeyExclusionPrecedesCryptoCheck` | src/main/java/org/elasticsearch/repositories/s3/S3Repository.java:99-107 | Once a bucket exists, a symmetric key together with either half of a key pair fails with the exclusion error on every runtime, even one whose AES key length is too short. |
| `S3Repository.WeakCryptoRefusesKeys` | src/main/java/org/elasticsearch/repositories/s3/S3Repository.java:102-107 | Any non-conflicting key on a runtime that allows AES keys shorter than 256 bits fails with the JCE error. |
| `S3Repository.NoKeysNoCrypto` | src/main/java/org/elasticsearch/repositories/s3/S3Repository.java:98-102 | With no key in either tier, construction succeeds without materials, and the outcome is the same for every cryptography runtime. |
| `S3Repository.SymmetricKeyPreserved` | src/main/java/org/elasticsearch/repositories/s3/S3Repository.java:115-116 | A symmetric key that decodes to non-empty bytes becomes an AES key holding exactly those bytes. |
| `S3Repository.KeyPairBuilt` | src/main/java/org/elasticsearch/repositories/s3/S3Repository.java:117-121 | With no symmetric key, success means both halves were set, were decoded and parsed by the runtime, and the pair holds exactly the parsed keys. |
| `S3Repository.SymmetricKeyRefused` | src/main/java/org/elasticsearch/repositories/s3/S3Repository.java:115-124 | A symmetric key that fails to decode, or decodes to no bytes, stops construction with a key-decoding error carrying the decoder's message or "Empty key". |
| `S3Repository.KeyPairAccepted` | src/main/java/org/elasticsearch/repositories/s3/S3Repository.java:117-121 | With no symmetric key, an available RSA key factory and both halves decoding and parsing, construction succeeds and encrypts with exactly the parsed pair. |
| `S3Repository.HalfKeyPairFails` | src/main/java/org/elasticsearch/repositories/s3/S3Repository.java:118-120 | One half of a key pair alone, with no symmetric key, never yields a repository. |
| `S3Repository.SummaryReportsKeys` | src/main/java/org/elasticsearch/repositories/s3/S3Repository.java:172-173 | On success, the debug line reports client-side encryption exactly when some client-side key is set in either tier. |
| `S3Repository.SummaryHidesSecrets` | src/main/java/org/elasticsearch/repositories/s3/S3Repository.java:172-173 | Repositories that differ only in credentials and key material log the same debug line. |
| `ClientSideEncryption.BuildMaterials` | src/main/java/org/elasticsearch/repositories/s3/S3Repository.java:98-129 | Exclusion comes first. With no key there are no materials. The 256-bit AES check comes before decoding. Past it, a set symmetric key gives exactly the outcome of `SymmetricMaterials`, and otherwise the outcome of `KeyPairMaterials`: its materials on success, its error on failure. On success, materials exist exactly when a key is set, and they are symmetric exactly when the symmetric key is set. |
| `ClientSideEncryption.SymmetricMaterials` | src/main/java/org/elasticsearch/repositories/s3/S3Repository.java:115-124 | Succeeds exactly when the base64 decoding succeeds with non-empty bytes, and then holds those bytes as an AES key. A decoding failure becomes a key-decoding `RepositoryException` with the decoder's message. An empty key becomes one with `SecretKeySpec`'s "Empty key". |
| `ClientSideEncryption.PublicHalf` | src/main/java/org/elasticsearch/repositories/s3/S3Repository.java:119-128 | An absent public key is the unchecked half-pair failure. A base64 failure becomes a key-decoding `RepositoryException` with the decoder's message, and an X.509 parse failure an `InvalidKeySpec` one with the parser's message. A success is the runtime's parse of the decoded bytes. |
| `ClientSideEncryption.PrivateHalf` | src/main/java/org/elasticsearch/repositories/s3/S3Repository.java:120-128 | An absent private key is the unchecked half-pair failure. A base64 failure becomes a key-decoding `RepositoryException` with the decoder's message, and a PKCS#8 parse failure an `InvalidKeySpec` one with the parser's message. A success is the runtime's parse of the decoded bytes. |
| `ClientSideEncryption.KeyPairMaterials` | src/main/java/org/elasticsearch/repositories/s3/S3Repository.java:118-128 | A missing RSA key factory fails with its `NoSuchAlgorithmException` message before anything is decoded. With the factory available: a failing public half gives its error; otherwise a failing private half gives its error; otherwise the result is the pair of the two parsed keys. |
| `ClientSideEncryption.PublicHalfErrorFirst` | src/main/java/org/elasticsearch/repositories/s3/S3Repository.java:118-120 | When the public half fails, its error is reported, whatever the private half holds. |
| `ClientSideEncryption.KeyPairFromParsedHalves` | src/main/java/org/elasticsearch/repositories/s3/S3Repository.java:118-120 | When both halves decode and parse, the pair is exactly the two parsed keys. |
| `RepositorySettings.Layered` | src/main/java/org/elasticsearch/repositories/s3/S3Repository.java:84-167 | The two-tier lookup without a default: the repository's value when it is set, the component's otherwise. |
| `RepositorySettings.LayeredOr` | src/main/java/org/elasticsearch/repositories/s3/S3Repository.java:166-170 | The two-tier lookup with a default: the repository's value, else the component's, else the default. |
| `RegionAliases.AliasLookup` | src/main/java/org/elasticsearch/repositories/s3/S3Repository.java:141-162 | The chain of comparisons on a lower-cased alias only ever produces one of the nine concrete region names. |
| `RegionAliases.LegacyRegion` | src/main/java/org/elasticsearch/repositories/s3/S3Repository.java:140-162 | The alias is lower-cased and looked up in the alias table. A known alias, the legacy short aliases included, yields its entry. Any other alias yields the default region. |
| `RegionAliases.AliasLookupMatchesTable` | src/main/java/org/elasticsearch/repositories/s3/S3Repository.java:141-162 | The chain of comparisons agrees with the alias table on every string. A known alias yields its entry (the `us-east` pair yields the default region). Anything else yields the default region, not an error. |
| `RegionAliases.LegacyRegionIgnoresCase` | src/main/java/org/elasticsearch/repositories/s3/S3Repository.java:140 | Only the lower-case form of an alias matters. |
| `RegionAliases.CanonicalRegionIsFixedPoint` | src/main/java/org/elasticsearch/repositories/s3/S3Repository.java:144-161 | Every region the table produces maps to itself when used as an alias. |
| `RegionAliases.ResolveRegion` | src/main/java/org/elasticsearch/repositories/s3/S3Repository.java:135-163 | The repository's region wins, then the component's. Only without either does the alias decide, and then only one of the concrete region names can result. With no alias at all, the region is unset. |
| `RegionAliases.RepositoryAliasWins` | src/main/java/org/elasticsearch/repositories/s3/S3Repository.java:138 | The repository's `cloud.aws.region` shadows the node's. |
| `Ascii.ToLower` | src/main/java/org/elasticsearch/repositories/s3/S3Repository.java:140 | Keeps the length, leaves no upper-case letter, changes only upper-case letters, and maps each of them to its lower-case form. |
| `Ascii.ToLowerIdempotent` | src/main/java/org/elasticsearch/repositories/s3/S3Repository.java:140 | Lower-casing twice is the same as lower-casing once. |
| `BlobPaths.Split` | src/main/java/org/elasticsearch/repositories/s3/S3Repository.java:196 | Every segment is non-empty and free of `/`. |
| `BlobPaths.SplitAtSeparator` | src/main/java/org/elasticsearch/repositories/s3/S3Repository.java:196 | Splitting `a/b` gives the segments of `a` followed by those of `b`. |
| `BlobPaths.SplitJoin` | src/main/java/org/elasticsearch/repositories/s3/S3Repository.java:196 | Splitting undoes joining segments with `/`. |
| `BlobPaths.SplitKeepsCharacters` | src/main/java/org/elasticsearch/repositories/s3/S3Repository.java:196 | The segments read one after another are the input with its separators deleted. |
| `BlobPaths.AppendAll` | src/main/java/org/elasticsearch/repositories/s3/S3Repository.java:195-198 | Adding the elements one at a time appends them all, in order. |
| `BlobPaths.BasePath` | src/main/java/org/elasticsearch/repositories/s3/S3Repository.java:193-202 | An unset or empty `base_path` gives the root. A set one gives exactly the segments of its split: each non-empty and separator-free, together spelling out the setting without its separators. |
| `BlobPaths.BasePathIdempotent` | src/main/java/org/elasticsearch/repositories/s3/S3Repository.java:193-202 | Rebuilding `base_path` from a base path's own segments gives the same path. |
| `BlobPaths.BasePathIgnoresExtraSeparators` | src/main/java/org/elasticsearch/repositories/s3/S3Repository.java:193-202 | Doubled, leading and trailing separators do not change the base path. |
| `BlobPaths.BasePathExamples` | src/main/java/org/elasticsearch/repositories/s3/S3Repository.java:193-202 | `a/b/c`, `/a/b/c/` and `a//b/c` all give the segments a, b, c. Unset and empty give the root. |

## Left out

- The S3 client and the blob store (`s3Service.client(...)`, `S3BlobStore`): the model records the arguments they receive (`ClientArgs`, and `StoreArgs`, which includes the node settings). Whatever they do, including failing, is not part of this model.
- The cryptography calls (`Base64.decode`, `SecretKeySpec`, `KeyFactory`, `X509EncodedKeySpec`, `PKCS8EncodedKeySpec`) belong to the JCA library. The model takes them as a `Jca` value of functions that may fail. `KeyFactory.getInstance("RSA")` is called once per half in the code and once in the model; both calls see the same runtime.
- `Cipher.getMaxAllowedKeyLength("AES")` is an integer input. The `NoSuchAlgorithmException` it could raise for AES is not modelled.
- Parsing of boolean, integer and byte-size settings (`getAsBoolean`, `getAsInt`, `getAsBytesSize`) belongs to the settings library. Settings arrive already typed, so parse errors are not modelled.
- `Strings.splitStringToArray` is an Elasticsearch utility this model does not cover. `BlobPaths.Split` assumes it splits on `/` and drops empty pieces.
- `toLowerCase(Locale.ENGLISH)` is ASCII lower-casing. The two differ only on characters that cannot turn an alias into a table entry.
- The repeated exclusion check of lines 110-112 is modelled as written. The first check already rules it out, so it never fires.
- The logger's text formatting is modelled only as the record of logged fields (`DebugSummary`).
- The component tier is taken as an input independent of the node's settings. In the program `componentSettings` is derived by the superclass from the node's settings (those under the `repositories.s3.` prefix), so changing such a node setting also changes the component tier. `S3Repository.NodeSettingsOnlyGiveRegionAlias` holds with the component tier held fixed.
- Dependency injection, the `BlobStoreRepository` superclass, and the accessors at lines 209-232 only return fields of `Repository`, so they are not modelled.

=== FILE: ascii.dfy ===
/** ASCII case mapping, standing in for `String.toLowerCase(Locale.ENGLISH)`.
    For the strings compared against the region alias table the two agree:
    no character outside ASCII lower-cases to a character of any alias. */
module Ascii {

  predicate IsUpper(c: char) {
    'A' <= c <= 'Z'
  }

  function LowerChar(c: char): (r: char)
    ensures !IsUpper(r)
    ensures !IsUpper(c) ==> r == c
    ensures IsUpper(c) ==> r as int == c as int + 32
  {
    if IsUpper(c) then (c as int + 32) as char else c
  }

  /** True when `s` contains no upper-case ASCII letter. */
  predicate IsLower(s: string) {
    forall i :: 0 <= i < |s| ==> !IsUpper(s[i])
  }

  /** Lower-cases every ASCII letter of `s` and leaves every other character alone. */
  function ToLower(s: string): (r: string)
    ensures |r| == |s|
    ensures IsLower(r)
    ensures forall i :: 0 <= i < |s| && !IsUpper(s[i]) ==> r[i] == s[i]
    ensures forall i :: 0 <= i < |s| && IsUpper(s[i]) ==> r[i] as int == s[i] as int + 32
  {
    seq(|s|, i requires 0 <= i < |s| => LowerChar(s[i]))
  }

  /** A string without upper-case letters is its own lower-case form. */
  lemma ToLowerOfLower(s: string)
    requires IsLower(s)
    ensures ToLower(s) == s
  {
  }

  /** Lower-casing twice is lower-casing once. */
  lemma ToLowerIdempotent(s: string)
    ensures ToLower(ToLower(s)) == ToLower(s)
  {
    ToLowerOfLower(ToLower(s));
  }
}

=== FILE: blob_path.dfy ===
/** The repository's root inside the bucket: the `base_path` setting split on
    `/` into an ordered list of path segments. */
module BlobPaths {
  import opened Wrappers

  /** A path inside the bucket as its ordered list of segments (`BlobPath`). */
  datatype BlobPath = BlobPath(segments: seq<string>) {

    /** This path extended by one more segment. */
    function Add(elem: string): BlobPath {
      BlobPath(segments + [elem])
    }
  }

  /** The root of the bucket (`BlobPath.cleanPath()`). */
  const Root: BlobPath := BlobPath([])

  const Separator: char := '/'

  /** What splitting can produce: a non-empty run of characters without a separator. */
  predicate IsSegment(s: string) {
    |s| > 0 && Separator !in s
  }

  /** The position of the first separator in `s`, or `|s|` when there is none. */
  function IndexOfSeparator(s: string): (k: nat)
    ensures k <= |s|
    ensures forall i :: 0 <= i < k ==> s[i] != Separator
    ensures k < |s| ==> s[k] == Separator
  {
    if |s| == 0 || s[0] == Separator then 0 else 1 + IndexOfSeparator(s[1..])
  }

  /** `s` split on `/`, dropping the empty pieces that leading, trailing and
      doubled separators leave, as `Strings.splitStringToArray(s, '/')` does. */
  function Split(s: string): (r: seq<string>)
    ensures forall i :: 0 <= i < |r| ==> IsSegment(r[i])
    decreases |s|
  {
    if |s| == 0 then []
    else if s[0] == Separator then Split(s[1..])
    else
      var k := IndexOfSeparator(s);
      [s[..k]] + Split(s[k..])
  }

  /** Segments joined with single separators. */
  function Join(segments: seq<string>): string {
    if |segments| == 0 then []
    else if |segments| == 1 then segments[0]
    else segments[0] + [Separator] + Join(segments[1..])
  }

  /** The segments written one after another, with nothing in between. */
  function Concat(segments: seq<string>): string {
    if |segments| == 0 then [] else segments[0] + Concat(segments[1..])
  }

  /** `s` with every separator deleted. */
  function RemoveSeparators(s: string): string {
    if |s| == 0 then []
    else (if s[0] == Separator then [] else [s[0]]) + RemoveSeparators(s[1..])
  }

  /** Adds each element to the end of `path`, first to last: the loop that builds
      the base path one `add` at a time. */
  function AppendAll(path: BlobPath, elems: seq<string>): (r: BlobPath)
    ensures r.segments == path.segments + elems
    decreases |elems|
  {
    if |elems| == 0 then path
    else AppendAll(path.Add(elems[0]), elems[1..])
  }

  /** The repository's base path: the root when `base_path` is unset or empty,
      otherwise the root extended by every segment of the split setting, in order. */
  function BasePath(setting: Option<string>): (r: BlobPath)
    ensures setting.None? || setting.value == [] ==> r == Root
    ensures forall i :: 0 <= i < |r.segments| ==> IsSegment(r.segments[i])
    ensures setting.Some? ==> Concat(r.segments) == RemoveSeparators(setting.value)
    ensures setting.Some? ==> r.segments == Split(setting.value)
  {
    if setting.Some? && |setting.value| > 0 then
      SplitKeepsCharacters(setting.value);
      AppendAll(BlobPath([]), Split(setting.value))
    else
      Root
  }

  lemma {:induction false} IndexOfSeparatorAppend(a: string, t: string)
    ensures IndexOfSeparator(a + t)
         == if IndexOfSeparator(a) < |a| then IndexOfSeparator(a) else |a| + IndexOfSeparator(t)
    decreases |a|
  {
    if |a| == 0 {
      assert a + t == t;
    } else if a[0] == Separator {
      assert (a + t)[0] == Separator;
    } else {
      assert (a + t)[1..] == a[1..] + t;
      IndexOfSeparatorAppend(a[1..], t);
    }
  }

  /** Splitting at a separator splits the two sides independently. */
  lemma {:induction false} SplitAtSeparator(a: string, b: string)
    ensures Split(a + [Separator] + b) == Split(a) + Split(b)
    decreases |a|
  {
    var s := a + [Separator] + b;
    if |a| == 0 {
      assert s[1..] == b;
    } else if a[0] == Separator {
      assert s[1..] == a[1..] + [Separator] + b;
      SplitAtSeparator(a[1..], b);
    } else {
      var ka := IndexOfSeparator(a);
      assert s == a + ([Separator] + b);
      IndexOfSeparatorAppend(a, [Separator] + b);
      var k := IndexOfSeparator(s);
      assert k == ka;
      if ka < |a| {
        assert s[..k] == a[..ka];
        assert s[k..] == a[ka..] + [Separator] + b;
        SplitAtSeparator(a[ka..], b);
      } else {
        assert s[..k] == a;
        assert s[k..] == [Separator] + b;
        assert ([Separator] + b)[1..] == b;
        assert Split(s[k..]) == Split(b);
        assert a[..ka] == a && a[ka..] == [];
        assert Split(a) == [a];
      }
    }
  }

  /** A segment splits into itself. */
  lemma SplitSegment(x: string)
    requires IsSegment(x)
    ensures Split(x) == [x]
  {
    IndexOfSeparatorAppend(x, []);
    assert x + [] == x;
    assert x[|x|..] == [];
  }

  /** Splitting undoes joining. */
  lemma {:induction false} SplitJoin(segments: seq<string>)
    requires forall i :: 0 <= i < |segments| ==> IsSegment(segments[i])
    ensures Split(Join(segments)) == segments
    decreases |segments|
  {
    if |segments| == 1 {
      SplitSegment(segments[0]);
    } else if |segments| > 1 {
      SplitAtSeparator(segments[0], Join(segments[1..]));
      SplitSegment(segments[0]);
      SplitJoin(segments[1..]);
      assert [segments[0]] + segments[1..] == segments;
    }
  }

  lemma {:induction false} RemoveSeparatorsAppend(a: string, b: string)
    ensures RemoveSeparators(a + b) == RemoveSeparators(a) + RemoveSeparators(b)
    decreases |a|
  {
    if |a| > 0 {
      assert (a + b)[1..] == a[1..] + b;
      RemoveSeparatorsAppend(a[1..], b);
    } else {
      assert a + b == b;
    }
  }

  lemma {:induction false} RemoveSeparatorsOfSegment(x: string)
    requires Separator !in x
    ensures RemoveSeparators(x) == x
    decreases |x|
  {
    if |x| > 0 {
      RemoveSeparatorsOfSegment(x[1..]);
      assert [x[0]] + x[1..] == x;
    }
  }

  /** Splitting loses the separators and nothing else: the segments, read one
      after another, are the input with its separators deleted. */
  lemma {:induction false} SplitKeepsCharacters(s: string)
    ensures Concat(Split(s)) == RemoveSeparators(s)
    decreases |s|
  {
    if |s| > 0 {
      if s[0] == Separator {
        SplitKeepsCharacters(s[1..]);
      } else {
        var k := IndexOfSeparator(s);
        var rest := Split(s[k..]);
        assert ([s[..k]] + rest)[1..] == rest;
        SplitKeepsCharacters(s[k..]);
        assert s == s[..k] + s[k..];
        RemoveSeparatorsAppend(s[..k], s[k..]);
        RemoveSeparatorsOfSegment(s[..k]);
      }
    }
  }

  /** Rebuilding `base_path` from the path's own segments gives the same path. */
  lemma BasePathIdempotent(setting: Option<string>)
    ensures BasePath(Some(Join(BasePath(setting).segments))) == BasePath(setting)
  {
    var p := BasePath(setting);
    SplitJoin(p.segments);
    if |p.segments| > 0 {
      assert |Join(p.segments)| > 0 by { JoinOfSegmentsNonEmpty(p.segments); }
    } else {
      assert Join(p.segments) == [];
    }
  }

  lemma JoinOfSegmentsNonEmpty(segments: seq<string>)
    requires 0 < |segments| && IsSegment(segments[0])
    ensures |Join(segments)| >= |segments[0]| > 0
  {
  }

  /** The base path of a set `base_path` is the root extended by its split. */
  lemma BasePathOfSetting(x: string)
    ensures BasePath(Some(x)) == BlobPath(Split(x))
  {
  }

  lemma SplitLeadingSeparator(a: string)
    ensures Split([Separator] + a) == Split(a)
  {
    assert ([Separator] + a)[1..] == a;
  }

  lemma SplitTrailingSeparator(a: string)
    ensures Split(a + [Separator]) == Split(a)
  {
    SplitAtSeparator(a, []);
    assert a + [Separator] + [] == a + [Separator];
  }

  lemma SplitDoubledSeparator(a: string, b: string)
    ensures Split(a + [Separator, Separator] + b) == Split(a + [Separator] + b)
  {
    SplitAtSeparator(a, b);
    SplitAtSeparator(a, [Separator] + b);
    SplitLeadingSeparator(b);
    assert a + [Separator, Separator] + b == a + [Separator] + ([Separator] + b);
  }

  /** Leading, trailing and doubled separators do not change the base path. */
  lemma BasePathIgnoresExtraSeparators(a: string, b: string)
    ensures BasePath(Some(a + [Separator] + b)) == BasePath(Some(a + [Separator, Separator] + b))
    ensures BasePath(Some(a)) == BasePath(Some([Separator] + a)) == BasePath(Some(a + [Separator]))
  {
    BasePathOfSetting(a);
    BasePathOfSetting([Separator] + a);
    BasePathOfSetting(a + [Separator]);
    BasePathOfSetting(a + [Separator] + b);
    BasePathOfSetting(a + [Separator, Separator] + b);
    SplitLeadingSeparator(a);
    SplitTrailingSeparator(a);
    SplitDoubledSeparator(a, b);
  }

  /** The path a/b/c, written plainly. */
  lemma SplitPlainExample()
    ensures Split("a/b/c") == ["a", "b", "c"]
  {
    SplitSegment("a");
    SplitSegment("b");
    SplitSegment("c");
    assert "b/c" == "b" + [Separator] + "c";
    SplitAtSeparator("b", "c");
    assert "a/b/c" == "a" + [Separator] + "b/c";
    SplitAtSeparator("a", "b/c");
  }

  lemma SplitLeadingTrailingExample()
    ensures Split("/a/b/c/") == ["a", "b", "c"]
  {
    SplitPlainExample();
    SplitTrailingSeparator("a/b/c");
    assert "a/b/c" + [Separator] == "a/b/c/";
    SplitLeadingSeparator("a/b/c/");
    assert [Separator] + "a/b/c/" == "/a/b/c/";
  }

  lemma SplitDoubledExample()
    ensures Split("a//b/c") == ["a", "b", "c"]
  {
    SplitPlainExample();
    SplitDoubledSeparator("a", "b/c");
    assert "a" + [Separator] + "b/c" == "a/b/c";
    assert "a" + [Separator, Separator] + "b/c" == "a//b/c";
  }

  /** Leading, trailing and doubled separators all give the path a/b/c. */
  lemma BasePathExamples()
    ensures BasePath(Some("a/b/c")) == BlobPath(["a", "b", "c"])
    ensures BasePath(Some("/a/b/c/")) == BlobPath(["a", "b", "c"])
    ensures BasePath(Some("a//b/c")) == BlobPath(["a", "b", "c"])
    ensures BasePath(Some("")) == BasePath(None) == Root
  {
    SplitPlainExample();
    SplitLeadingTrailingExample();
    SplitDoubledExample();
    BasePathOfSetting("a/b/c");
    BasePathOfSetting("/a/b/c/");
    BasePathOfSetting("a//b/c");
  }
}

=== FILE: encryption.dfy ===
/** Client-side encryption materials: a symmetric AES key, or an RSA key pair,
    or nothing. The cryptography library (base64 decoding, key factories, the
    AES key-length policy) is outside the model and enters as a `Jca` value
    whose operations may fail. */
module ClientSideEncryption {
  import opened Wrappers
  import opened RepositoryErrors

  type Bytes = seq<bv8>

  /** A raw secret key together with its algorithm name (`SecretKeySpec`). */
  datatype SecretKey = SecretKey(encoded: Bytes, algorithm: string)

  /** An RSA public key parsed from its X.509 encoding. */
  datatype PublicKey = PublicKey(encoded: Bytes)

  /** An RSA private key parsed from its PKCS#8 encoding. */
  datatype PrivateKey = PrivateKey(encoded: Bytes)

  /** What the S3 client encrypts with; exactly one kind of key at a time. */
  datatype EncryptionMaterials =
    | Symmetric(key: SecretKey)
    | KeyPair(publicKey: PublicKey, privateKey: PrivateKey)

  /** Whether `KeyFactory.getInstance("RSA")` succeeds, and the message of the
      `NoSuchAlgorithmException` when it does not. */
  datatype Availability = Available | Unavailable(message: string)

  /** The cryptography runtime the constructor calls into. A `Failure` of a
      decoder carries the exception's message. */
  datatype Jca = Jca(
    maxAesKeyLength: int,                             // Cipher.getMaxAllowedKeyLength("AES")
    base64Decode: string -> Result<Bytes, string>,    // Failure: IllegalArgumentException
    rsaKeyFactory: Availability,                      // KeyFactory.getInstance("RSA")
    generatePublic: Bytes -> Result<PublicKey, string>,   // Failure: InvalidKeySpecException
    generatePrivate: Bytes -> Result<PrivateKey, string>  // Failure: InvalidKeySpecException
  )

  /** The key length (in bits) the runtime must allow for AES. */
  const RequiredAesKeyLength := 256

  /** A symmetric key together with either half of a key pair. */
  predicate Conflicting(symmetric: Option<string>, public: Option<string>, private: Option<string>) {
    symmetric.Some? && (public.Some? || private.Some?)
  }

  /** Some client-side encryption key is set. */
  predicate AnyKey(symmetric: Option<string>, public: Option<string>, private: Option<string>) {
    symmetric.Some? || public.Some? || private.Some?
  }

  /** Decodes the base64 symmetric key into an AES key. `SecretKeySpec` refuses
      an empty key with an `IllegalArgumentException`, which the constructor
      reports like a decoding error. */
  function SymmetricMaterials(name: string, b64: string, jca: Jca): (r: Result<EncryptionMaterials, ConstructionError>)
    ensures r.Success? <==> jca.base64Decode(b64).Success? && |jca.base64Decode(b64).value| > 0
    ensures r.Success? ==> r.value == Symmetric(SecretKey(jca.base64Decode(b64).value, "AES"))
    ensures jca.base64Decode(b64).Failure?
            ==> r == Failure(RepositoryException(name, KeyDecoding(jca.base64Decode(b64).error)))
    ensures jca.base64Decode(b64) == Success([]) ==> r == Failure(RepositoryException(name, KeyDecoding("Empty key")))
  {
    match jca.base64Decode(b64)
    case Failure(message) => Failure(RepositoryException(name, KeyDecoding(message)))
    case Success(bytes) =>
      if |bytes| == 0 then Failure(RepositoryException(name, KeyDecoding("Empty key")))
      else Success(Symmetric(SecretKey(bytes, "AES")))
  }

  /** Decodes and parses the public half: base64, then the X.509 key spec. */
  function PublicHalf(name: string, b64: Option<string>, jca: Jca): (r: Result<PublicKey, ConstructionError>)
    ensures b64.None? ==> r == Failure(IncompleteKeyPair)
    ensures r.Success? ==> b64.Some? && jca.base64Decode(b64.value).Success?
                           && jca.generatePublic(jca.base64Decode(b64.value).value) == Success(r.value)
    ensures b64.Some? && jca.base64Decode(b64.value).Failure?
            ==> r == Failure(RepositoryException(name, KeyDecoding(jca.base64Decode(b64.value).error)))
    ensures b64.Some? && jca.base64Decode(b64.value).Success?
            && jca.generatePublic(jca.base64Decode(b64.value).value).Failure?
            ==> r == Failure(RepositoryException(name, InvalidKeySpec(
                       jca.generatePublic(jca.base64Decode(b64.value).value).error)))
  {
    if b64.None? then Failure(IncompleteKeyPair)
    else
      match jca.base64Decode(b64.value)
      case Failure(message) => Failure(RepositoryException(name, KeyDecoding(message)))
      case Success(bytes) =>
        match jca.generatePublic(bytes)
        case Failure(message) => Failure(RepositoryException(name, InvalidKeySpec(message)))
        case Success(key) => Success(key)
  }

  /** Decodes and parses the private half: base64, then the PKCS#8 key spec. */
  function PrivateHalf(name: string, b64: Option<string>, jca: Jca): (r: Result<PrivateKey, ConstructionError>)
    ensures b64.None? ==> r == Failure(IncompleteKeyPair)
    ensures r.Success? ==> b64.Some? && jca.base64Decode(b64.value).Success?
                           && jca.generatePrivate(jca.base64Decode(b64.value).value) == Success(r.value)
    ensures b64.Some? && jca.base64Decode(b64.value).Failure?
            ==> r == Failure(RepositoryException(name, KeyDecoding(jca.base64Decode(b64.value).error)))
    ensures b64.Some? && jca.base64Decode(b64.value).Success?
            && jca.generatePrivate(jca.base64Decode(b64.value).value).Failure?
            ==> r == Failure(RepositoryException(name, InvalidKeySpec(
                       jca.generatePrivate(jca.base64Decode(b64.value).value).error)))
  {
    if b64.None? then Failure(IncompleteKeyPair)
    else
      match jca.base64Decode(b64.value)
      case Failure(message) => Failure(RepositoryException(name, KeyDecoding(message)))
      case Success(bytes) =>
        match jca.generatePrivate(bytes)
        case Failure(message) => Failure(RepositoryException(name, InvalidKeySpec(message)))
        case Success(key) => Success(key)
  }

  /** Builds the RSA key pair in the order the constructor evaluates it: the
      key factory, then the whole public half, then the whole private half. */
  function KeyPairMaterials(name: string, public: Option<string>, private: Option<string>, jca: Jca)
    : (r: Result<EncryptionMaterials, ConstructionError>)
    ensures jca.rsaKeyFactory.Unavailable? ==>
              r == Failure(RepositoryException(name, NoSuchAlgorithm(jca.rsaKeyFactory.message)))
    ensures r.Success? ==> r.value.KeyPair?
    ensures jca.rsaKeyFactory.Available? && PublicHalf(name, public, jca).Failure?
            ==> r == Failure(PublicHalf(name, public, jca).error)
    ensures jca.rsaKeyFactory.Available? && PublicHalf(name, public, jca).Success?
            && PrivateHalf(name, private, jca).Failure?
            ==> r == Failure(PrivateHalf(name, private, jca).error)
    ensures jca.rsaKeyFactory.Available? && PublicHalf(name, public, jca).Success?
            && PrivateHalf(name, private, jca).Success?
            ==> r == Success(KeyPair(PublicHalf(name, public, jca).value, PrivateHalf(name, private, jca).value))
  {
    if jca.rsaKeyFactory.Unavailable? then
      Failure(RepositoryException(name, NoSuchAlgorithm(jca.rsaKeyFactory.message)))
    else
      var publicKey :- PublicHalf(name, public, jca);
      var privateKey :- PrivateHalf(name, private, jca);
      Success(KeyPair(publicKey, privateKey))
  }

  /** The client-side encryption decision of the constructor: refuse a symmetric
      key next to either half of a key pair; with no key at all there are no
      materials and the cryptography runtime is never consulted; otherwise require
      256-bit AES, then build symmetric materials exactly when the symmetric key
      is set and an RSA key pair otherwise. */
  function BuildMaterials(name: string, symmetric: Option<string>, public: Option<string>,
                          private: Option<string>, jca: Jca)
    : (r: Result<Option<EncryptionMaterials>, ConstructionError>)
    ensures Conflicting(symmetric, public, private) ==> r == Failure(RepositoryException(name, KeyExclusion))
    ensures !AnyKey(symmetric, public, private) ==> r == Success(None)
    ensures AnyKey(symmetric, public, private) && !Conflicting(symmetric, public, private)
            && jca.maxAesKeyLength < RequiredAesKeyLength
            ==> r == Failure(RepositoryException(name, WeakCrypto))
    ensures r.Success? ==> (r.value.Some? <==> AnyKey(symmetric, public, private))
    ensures r.Success? && r.value.Some? ==> (r.value.value.Symmetric? <==> symmetric.Some?)
    ensures r.Success? && r.value.Some? ==> jca.maxAesKeyLength >= RequiredAesKeyLength
    ensures r.Failure? && r.error.RepositoryException? ==> r.error.repository == name
    ensures r.Failure? && r.error.IncompleteKeyPair? ==> symmetric.None? && (public.None? || private.None?)
    ensures symmetric.Some? && !Conflicting(symmetric, public, private) && jca.maxAesKeyLength >= RequiredAesKeyLength
            ==> var m := SymmetricMaterials(name, symmetric.value, jca);
                r == if m.Success? then Success(Some(m.value)) else Failure(m.error)
    ensures symmetric.None? && AnyKey(symmetric, public, private) && jca.maxAesKeyLength >= RequiredAesKeyLength
            ==> var m := KeyPairMaterials(name, public, private, jca);
                r == if m.Success? then Success(Some(m.value)) else Failure(m.error)
  {
    if Conflicting(symmetric, public, private) then
      Failure(RepositoryException(name, KeyExclusion))
    else if !AnyKey(symmetric, public, private) then
      Success(None)
    else if jca.maxAesKeyLength < RequiredAesKeyLength then
      Failure(RepositoryException(name, WeakCrypto))
    else if Conflicting(symmetric, public, private) then
      // The constructor repeats the exclusion check here; the first check has
      // already ruled it out, so this branch is never taken.
      Failure(RepositoryException(name, KeyExclusion))
    else if symmetric.Some? then
      var materials :- SymmetricMaterials(name, symmetric.value, jca);
      Success(Some(materials))
    else
      var materials :- KeyPairMaterials(name, public, private, jca);
      Success(Some(materials))
  }

  /** The public half is decoded and parsed before the private half, so when
      both are broken the public half's error is the one reported. */
  lemma PublicHalfErrorFirst(name: string, public: Option<string>, private: Option<string>, jca: Jca)
    requires jca.rsaKeyFactory.Available?
    requires PublicHalf(name, public, jca).Failure?
    ensures KeyPairMaterials(name, public, private, jca) == Failure(PublicHalf(name, public, jca).error)
  {
  }

  /** With the key factory available and both halves decoding and parsing, the
      pair holds exactly the two parsed keys. */
  lemma KeyPairFromParsedHalves(name: string, public: string, private: string, jca: Jca,
                                publicKey: PublicKey, privateKey: PrivateKey)
    requires jca.rsaKeyFactory.Available?
    requires jca.base64Decode(public).Success? && jca.generatePublic(jca.base64Decode(public).value) == Success(publicKey)
    requires jca.base64Decode(private).Success? && jca.generatePrivate(jca.base64Decode(private).value) == Success(privateKey)
    ensures KeyPairMaterials(name, Some(public), Some(private), jca) == Success(KeyPair(publicKey, privateKey))
  {
  }
}

=== FILE: errors.dfy ===
/** The ways repository construction can fail. */
module RepositoryErrors {

  /** Why a `RepositoryException` was raised. */
  datatype Cause =
    | NoBucket                          // no bucket defined for the s3 gateway
    | KeyExclusion                      // a symmetric key AND a public/private key pair
    | WeakCrypto                        // AES limited below 256 bits: the JCE is not installed
    | KeyDecoding(message: string)      // an IllegalArgumentException while decoding the keys
    | NoSuchAlgorithm(message: string)  // the RSA key factory is unavailable
    | InvalidKeySpec(message: string)   // the decoded bytes are not a key of the expected kind

  datatype ConstructionError =
      /** The checked failure the constructor raises, carrying the repository's name. */
    | RepositoryException(repository: string, cause: Cause)
      /** Only one half of a key pair is set: the absent half reaches the key-spec
          constructor as `null` and construction fails with an unchecked exception,
          not with a `RepositoryException`. */
    | IncompleteKeyPair
}

=== FILE: region.dfy ===
/** Region selection for the S3 client: an explicit `region` setting, or else
    the legacy global `cloud.aws.region` alias mapped through a fixed table. */
module RegionAliases {
  import opened Wrappers
  import Ascii

  /** The concrete region names the alias table can produce. */
  const CanonicalRegions: set<string> := {
    "us-west-1", "us-west-2", "ap-southeast-1", "ap-southeast-2",
    "ap-northeast-1", "eu-west-1", "eu-central-1", "sa-east-1", "cn-north-1"
  }

  /** Every alias the resolver recognises (in lower case) and what it yields.
      `None` is the default region (US Standard); it is also what every alias
      outside this table yields. */
  const AliasTable: map<string, Option<string>> := map[
    "us-east" := None, "us-east-1" := None,
    "us-west" := Some("us-west-1"), "us-west-1" := Some("us-west-1"),
    "us-west-2" := Some("us-west-2"),
    "ap-southeast" := Some("ap-southeast-1"), "ap-southeast-1" := Some("ap-southeast-1"),
    "ap-southeast-2" := Some("ap-southeast-2"),
    "ap-northeast" := Some("ap-northeast-1"), "ap-northeast-1" := Some("ap-northeast-1"),
    "eu-west" := Some("eu-west-1"), "eu-west-1" := Some("eu-west-1"),
    "eu-central" := Some("eu-central-1"), "eu-central-1" := Some("eu-central-1"),
    "sa-east" := Some("sa-east-1"), "sa-east-1" := Some("sa-east-1"),
    "cn-north" := Some("cn-north-1"), "cn-north-1" := Some("cn-north-1")
  ]

  /** The constructor's chain of `equals` comparisons, applied to an alias
      that has already been lower-cased. */
  function AliasLookup(a: string): (r: Option<string>)
    ensures r.Some? ==> r.value in CanonicalRegions
  {
    if a == "us-east" || a == "us-east-1" then None
    else if a == "us-west" || a == "us-west-1" then Some("us-west-1")
    else if a == "us-west-2" then Some("us-west-2")
    else if a == "ap-southeast" || a == "ap-southeast-1" then Some("ap-southeast-1")
    else if a == "ap-southeast-2" then Some("ap-southeast-2")
    else if a == "ap-northeast" || a == "ap-northeast-1" then Some("ap-northeast-1")
    else if a == "eu-west" || a == "eu-west-1" then Some("eu-west-1")
    else if a == "eu-central" || a == "eu-central-1" then Some("eu-central-1")
    else if a == "sa-east" || a == "sa-east-1" then Some("sa-east-1")
    else if a == "cn-north" || a == "cn-north-1" then Some("cn-north-1")
    else None
  }

  /** Maps a global region alias to a region, case-insensitively. An unknown
      alias is not an error: it yields the default region, exactly like `us-east`. */
  function LegacyRegion(alias: string): (r: Option<string>)
    ensures r.Some? ==> r.value in CanonicalRegions
    ensures var a := Ascii.ToLower(alias); r == if a in AliasTable then AliasTable[a] else None
  {
    AliasLookupMatchesTable(Ascii.ToLower(alias));
    AliasLookup(Ascii.ToLower(alias))
  }

  /** The comparison chain and the table agree on every lower-cased alias: a
      known alias yields its table entry, anything else the default region. */
  lemma AliasLookupMatchesTable(a: string)
    ensures AliasLookup(a) == if a in AliasTable then AliasTable[a] else None
  {
  }

  /** Only the lower-case form of the alias matters. */
  lemma LegacyRegionIgnoresCase(alias: string)
    ensures LegacyRegion(alias) == LegacyRegion(Ascii.ToLower(alias))
  {
    Ascii.ToLowerIdempotent(alias);
  }

  /** Every region the table produces resolves to itself when used as an alias. */
  lemma CanonicalRegionIsFixedPoint(region: string)
    requires region in CanonicalRegions
    ensures LegacyRegion(region) == Some(region)
  {
    LowerCaseLiteral(region);
  }

  /** The region names and aliases of the table are written in lower case. */
  lemma LowerCaseLiteral(s: string)
    requires s in CanonicalRegions || s in AliasTable
    ensures Ascii.ToLower(s) == s
  {
    assert forall i :: 0 <= i < |s| ==> s[i] == '-' || '0' <= s[i] <= '9' || 'a' <= s[i] <= 'z';
    Ascii.ToLowerOfLower(s);
  }

  /** The region handed to the client: the repository's `region`, else the
      component's `region`, used verbatim (not lower-cased, and an empty string
      counts as set); only when both are unset is the `cloud.aws.region` alias
      consulted, the repository's before the node's. */
  function ResolveRegion(repoRegion: Option<string>, componentRegion: Option<string>,
                         repoAlias: Option<string>, nodeAlias: Option<string>): (r: Option<string>)
    ensures repoRegion.Some? ==> r == repoRegion
    ensures repoRegion.None? && componentRegion.Some? ==> r == componentRegion
    ensures repoRegion.None? && componentRegion.None? && r.Some? ==> r.value in CanonicalRegions
    ensures repoRegion.None? && componentRegion.None? && repoAlias.None? && nodeAlias.None? ==> r.None?
  {
    var explicit := repoRegion.OrElse(componentRegion);
    if explicit.Some? then explicit
    else
      var alias := repoAlias.OrElse(nodeAlias);
      if alias.Some? then LegacyRegion(alias.value) else None
  }

  /** With no explicit region, the repository's alias shadows the node's. */
  lemma RepositoryAliasWins(componentRegion: Option<string>, repoAlias: string, nodeAlias: Option<string>)
    ensures ResolveRegion(None, componentRegion, Some(repoAlias), nodeAlias)
         == if componentRegion.Some? then componentRegion else LegacyRegion(repoAlias)
  {
  }
}

=== FILE: s3_repository.dfy ===
/** Construction of an S3 snapshot repository: the settings of the repository
    and of the S3 component are resolved, validated and turned into the
    arguments of the S3 client and of the blob store, the base path, the chunk
    size and the compression flag, or into the single error that stops
    construction. */
module S3Repository {
  import opened Wrappers
  import opened RepositorySettings
  import opened RepositoryErrors
  import opened ClientSideEncryption
  import opened RegionAliases
  import opened BlobPaths

  const DefaultServerSideEncryption := false
  const DefaultMaxRetries := 3
  const DefaultChunkSize: ByteSize := 100 * Megabyte
  const DefaultCompress := false

  /** What the constructor passes to `s3Service.client(...)`. */
  datatype ClientArgs = ClientArgs(
    endpoint: Option<string>,
    protocol: Option<string>,
    region: Option<string>,
    accessKey: Option<string>,
    secretKey: Option<string>,
    maxRetries: int,
    materials: Option<EncryptionMaterials>
  )

  /** What the constructor passes to the `S3BlobStore`, besides the client:
      the node's settings first, then the resolved store parameters. */
  datatype StoreArgs = StoreArgs(
    nodeSettings: Settings,
    bucket: string,
    region: Option<string>,
    serverSideEncryption: bool,
    bufferSize: Option<ByteSize>,
    maxRetries: int
  )

  /** A constructed repository: its blob store, base path, chunk size and
      compression flag are what the snapshot engine reads back. */
  datatype Repository = Repository(
    name: string,
    client: ClientArgs,
    store: StoreArgs,
    basePath: BlobPath,
    chunkSize: ByteSize,
    compress: bool
  )

  /** The fields of the debug line logged after resolution. Keys and
      credentials have no place in it: only whether client-side encryption is on. */
  datatype DebugSummary = DebugSummary(
    bucket: string,
    region: Option<string>,
    endpoint: Option<string>,
    protocol: Option<string>,
    chunkSize: ByteSize,
    serverSideEncryption: bool,
    bufferSize: Option<ByteSize>,
    maxRetries: int,
    clientSideEncryption: bool
  )

  function Summary(repository: Repository): DebugSummary {
    DebugSummary(repository.store.bucket, repository.client.region, repository.client.endpoint,
                 repository.client.protocol, repository.chunkSize,
                 repository.store.serverSideEncryption, repository.store.bufferSize,
                 repository.client.maxRetries, repository.client.materials.Some?)
  }

  /** The three client-side encryption keys, each looked up in both tiers. */
  function SymmetricKey(repo: Settings, component: Settings): (r: Option<string>)
    ensures r == if repo.symmetricKey.Some? then repo.symmetricKey else component.symmetricKey
  {
    Layered(repo.symmetricKey, component.symmetricKey)
  }

  function PublicKeySetting(repo: Settings, component: Settings): (r: Option<string>)
    ensures r == if repo.publicKey.Some? then repo.publicKey else component.publicKey
  {
    Layered(repo.publicKey, component.publicKey)
  }

  function PrivateKeySetting(repo: Settings, component: Settings): (r: Option<string>)
    ensures r == if repo.privateKey.Some? then repo.privateKey else component.privateKey
  {
    Layered(repo.privateKey, component.privateKey)
  }

  /** Resolves the repository named `name` from its own settings `repo`, the S3
      component's settings `component` (consulted only for what `repo` leaves
      unset), the node's settings `node` (handed to the blob store, and
      otherwise consulted only for `cloud.aws.region`, with the component tier
      held fixed) and the cryptography runtime `jca`. The first failing check wins: the
      bucket, then the client-side encryption keys. */
  function Resolve(name: string, repo: Settings, component: Settings, node: Settings, jca: Jca)
    : (r: Result<Repository, ConstructionError>)
    ensures r == Failure(RepositoryException(name, NoBucket))
            <==> repo.bucket.None? && component.bucket.None?
    ensures r.Failure? && r.error.RepositoryException? ==> r.error.repository == name
    ensures r.Success? ==> r.value.name == name
    ensures repo.bucket.Some? || component.bucket.Some? ==>
              var m := BuildMaterials(name, SymmetricKey(repo, component), PublicKeySetting(repo, component),
                                      PrivateKeySetting(repo, component), jca);
              && (m.Failure? ==> r == Failure(m.error))
              && (m.Success? ==> r.Success? && r.value.client.materials == m.value)
    ensures r.Success? ==> r.value.client.region == r.value.store.region
                           && r.value.client.maxRetries == r.value.store.maxRetries
    ensures r.Success? ==> (r.value.client.materials.Some?
                            <==> AnyKey(SymmetricKey(repo, component), PublicKeySetting(repo, component),
                                        PrivateKeySetting(repo, component)))
  {
    var bucket := Layered(repo.bucket, component.bucket);
    if bucket.None? then
      Failure(RepositoryException(name, NoBucket))
    else
      var materials :- BuildMaterials(name, SymmetricKey(repo, component), PublicKeySetting(repo, component),
                                      PrivateKeySetting(repo, component), jca);
      var region := ResolveRegion(repo.region, component.region, repo.cloudAwsRegion, node.cloudAwsRegion);
      var maxRetries := LayeredOr(repo.maxRetries, component.maxRetries, DefaultMaxRetries);
      var client := ClientArgs(
        Layered(repo.endpoint, component.endpoint),
        Layered(repo.protocol, component.protocol),
        region,
        repo.accessKey,
        repo.secretKey,
        maxRetries,
        materials);
      var store := StoreArgs(
        node,
        bucket.value,
        region,
        LayeredOr(repo.serverSideEncryption, component.serverSideEncryption, DefaultServerSideEncryption),
        Layered(repo.bufferSize, component.bufferSize),
        maxRetries);
      Success(Repository(
        name,
        client,
        store,
        BasePath(repo.basePath),
        LayeredOr(repo.chunkSize, component.chunkSize, DefaultChunkSize),
        LayeredOr(repo.compress, component.compress, DefaultCompress)))
  }

  /** The settings read from both tiers agree wherever the repository leaves
      them unset. `access_key`, `secret_key` and `base_path` are not among them:
      they are read from the repository's settings alone. */
  predicate AgreeWhereRepositoryUnset(repo: Settings, c1: Settings, c2: Settings) {
    && (repo.bucket.Some? || c1.bucket == c2.bucket)
    && (repo.symmetricKey.Some? || c1.symmetricKey == c2.symmetricKey)
    && (repo.publicKey.Some? || c1.publicKey == c2.publicKey)
    && (repo.privateKey.Some? || c1.privateKey == c2.privateKey)
    && (repo.endpoint.Some? || c1.endpoint == c2.endpoint)
    && (repo.protocol.Some? || c1.protocol == c2.protocol)
    && (repo.region.Some? || c1.region == c2.region)
    && (repo.serverSideEncryption.Some? || c1.serverSideEncryption == c2.serverSideEncryption)
    && (repo.bufferSize.Some? || c1.bufferSize == c2.bufferSize)
    && (repo.maxRetries.Some? || c1.maxRetries == c2.maxRetries)
    && (repo.chunkSize.Some? || c1.chunkSize == c2.chunkSize)
    && (repo.compress.Some? || c1.compress == c2.compress)
  }

  /** A value set for the repository shadows the component's: two component
      tiers that differ only in settings the repository sets (or in settings
      read from the repository alone) lead to the same outcome. */
  lemma RepositoryTierShadowsComponent(name: string, repo: Settings, c1: Settings, c2: Settings,
                                       node: Settings, jca: Jca)
    requires AgreeWhereRepositoryUnset(repo, c1, c2)
    ensures Resolve(name, repo, c1, node, jca) == Resolve(name, repo, c2, node, jca)
  {
    assert Layered(repo.bucket, c1.bucket) == Layered(repo.bucket, c2.bucket);
    assert BuildMaterials(name, SymmetricKey(repo, c1), PublicKeySetting(repo, c1), PrivateKeySetting(repo, c1), jca)
        == BuildMaterials(name, SymmetricKey(repo, c2), PublicKeySetting(repo, c2), PrivateKeySetting(repo, c2), jca);
    assert ResolveRegion(repo.region, c1.region, repo.cloudAwsRegion, node.cloudAwsRegion)
        == ResolveRegion(repo.region, c2.region, repo.cloudAwsRegion, node.cloudAwsRegion);
  }

  /** The node's settings are handed to the blob store as they are; apart from
      that, they matter only through `cloud.aws.region`. */
  lemma NodeSettingsOnlyGiveRegionAlias(name: string, repo: Settings, component: Settings,
                                        n1: Settings, n2: Settings, jca: Jca)
    requires n1.cloudAwsRegion == n2.cloudAwsRegion
    ensures var r1 := Resolve(name, repo, component, n1, jca);
            var r2 := Resolve(name, repo, component, n2, jca);
            && (r1.Failure? ==> r1 == r2)
            && (r1.Success? ==> r2.Success? && r1.value.store.nodeSettings == n1
                                && r1.value.(store := r1.value.store.(nodeSettings := n2)) == r2.value)
  {
  }

  /** The bucket and every other two-tier setting takes the repository's value
      when set and the component's otherwise; credentials and the base path
      come from the repository's settings alone. */
  lemma Precedence(name: string, repo: Settings, component: Settings, node: Settings, jca: Jca)
    requires Resolve(name, repo, component, node, jca).Success?
    ensures var rep := Resolve(name, repo, component, node, jca).value;
      && rep.store.bucket == (if repo.bucket.Some? then repo.bucket.value else component.bucket.value)
      && rep.client.endpoint == (if repo.endpoint.Some? then repo.endpoint else component.endpoint)
      && rep.client.protocol == (if repo.protocol.Some? then repo.protocol else component.protocol)
      && rep.store.bufferSize == (if repo.bufferSize.Some? then repo.bufferSize else component.bufferSize)
      && SymmetricKey(repo, component) == (if repo.symmetricKey.Some? then repo.symmetricKey else component.symmetricKey)
      && PublicKeySetting(repo, component) == (if repo.publicKey.Some? then repo.publicKey else component.publicKey)
      && PrivateKeySetting(repo, component) == (if repo.privateKey.Some? then repo.privateKey else component.privateKey)
      && rep.client.accessKey == repo.accessKey
      && rep.client.secretKey == repo.secretKey
      && rep.basePath == BasePath(repo.basePath)
      && (repo.maxRetries.Some? ==> rep.store.maxRetries == repo.maxRetries.value)
      && (repo.maxRetries.None? && component.maxRetries.Some? ==> rep.store.maxRetries == component.maxRetries.value)
      && (repo.chunkSize.Some? ==> rep.chunkSize == repo.chunkSize.value)
      && (repo.chunkSize.None? && component.chunkSize.Some? ==> rep.chunkSize == component.chunkSize.value)
      && (repo.compress.Some? ==> rep.compress == repo.compress.value)
      && (repo.compress.None? && component.compress.Some? ==> rep.compress == component.compress.value)
      && (repo.serverSideEncryption.Some? ==> rep.store.serverSideEncryption == repo.serverSideEncryption.value)
      && (repo.serverSideEncryption.None? && component.serverSideEncryption.Some?
          ==> rep.store.serverSideEncryption == component.serverSideEncryption.value)
  {
  }

  /** Settings unset in both tiers take their defaults: no server-side
      encryption, no buffer size, 3 retries, 100 MB chunks, no compression. */
  lemma Defaults(name: string, repo: Settings, component: Settings, node: Settings, jca: Jca)
    requires Resolve(name, repo, component, node, jca).Success?
    ensures var rep := Resolve(name, repo, component, node, jca).value;
      && (repo.serverSideEncryption.None? && component.serverSideEncryption.None? ==> !rep.store.serverSideEncryption)
      && (repo.bufferSize.None? && component.bufferSize.None? ==> rep.store.bufferSize.None?)
      && (repo.maxRetries.None? && component.maxRetries.None? ==> rep.store.maxRetries == 3)
      && (repo.chunkSize.None? && component.chunkSize.None? ==> rep.chunkSize == 104857600)
      && (repo.compress.None? && component.compress.None? ==> !rep.compress)
  {
  }

  /** An explicit region is handed over verbatim; without one, the alias
      `cloud.aws.region` decides, the repository's before the node's, and an
      alias outside the table leaves the region unset. */
  lemma RegionSelection(name: string, repo: Settings, component: Settings, node: Settings, jca: Jca)
    requires Resolve(name, repo, component, node, jca).Success?
    ensures var region := Resolve(name, repo, component, node, jca).value.client.region;
      && (repo.region.Some? ==> region == repo.region)
      && (repo.region.None? && component.region.Some? ==> region == component.region)
      && (repo.region.None? && component.region.None? && repo.cloudAwsRegion.Some?
          ==> region == LegacyRegion(repo.cloudAwsRegion.value))
      && (repo.region.None? && component.region.None? && repo.cloudAwsRegion.None? && node.cloudAwsRegion.Some?
          ==> region == LegacyRegion(node.cloudAwsRegion.value))
      && (repo.region.None? && component.region.None? && repo.cloudAwsRegion.None? && node.cloudAwsRegion.None?
          ==> region.None?)
  {
  }

  /** A symmetric key next to either half of a key pair is refused before the
      runtime's AES key length is looked at, so it is refused on every runtime. */
  lemma KeyExclusionPrecedesCryptoCheck(name: string, repo: Settings, component: Settings, node: Settings, jca: Jca)
    requires repo.bucket.Some? || component.bucket.Some?
    requires Conflicting(SymmetricKey(repo, component), PublicKeySetting(repo, component),
                         PrivateKeySetting(repo, component))
    ensures Resolve(name, repo, component, node, jca) == Failure(RepositoryException(name, KeyExclusion))
  {
  }

  /** Any client-side key on a runtime limited below 256-bit AES is refused. */
  lemma WeakCryptoRefusesKeys(name: string, repo: Settings, component: Settings, node: Settings, jca: Jca)
    requires repo.bucket.Some? || component.bucket.Some?
    requires AnyKey(SymmetricKey(repo, component), PublicKeySetting(repo, component), PrivateKeySetting(repo, component))
    requires !Conflicting(SymmetricKey(repo, component), PublicKeySetting(repo, component),
                          PrivateKeySetting(repo, component))
    requires jca.maxAesKeyLength < 256
    ensures Resolve(name, repo, component, node, jca) == Failure(RepositoryException(name, WeakCrypto))
  {
  }

  /** Without any client-side key, construction never consults the cryptography
      runtime: it succeeds without materials whatever the runtime does. */
  lemma NoKeysNoCrypto(name: string, repo: Settings, component: Settings, node: Settings, j1: Jca, j2: Jca)
    requires repo.bucket.Some? || component.bucket.Some?
    requires !AnyKey(SymmetricKey(repo, component), PublicKeySetting(repo, component), PrivateKeySetting(repo, component))
    ensures Resolve(name, repo, component, node, j1) == Resolve(name, repo, component, node, j2)
    ensures Resolve(name, repo, component, node, j1).Success?
    ensures Resolve(name, repo, component, node, j1).value.client.materials.None?
  {
  }

  /** A symmetric key whose base64 form decodes to a non-empty byte string
      becomes an AES key holding exactly those bytes. */
  lemma SymmetricKeyPreserved(name: string, repo: Settings, component: Settings, node: Settings, jca: Jca,
                              b64: string, key: Bytes)
    requires repo.bucket.Some? || component.bucket.Some?
    requires SymmetricKey(repo, component) == Some(b64)
    requires PublicKeySetting(repo, component).None? && PrivateKeySetting(repo, component).None?
    requires jca.maxAesKeyLength >= 256
    requires jca.base64Decode(b64) == Success(key) && |key| > 0
    ensures Resolve(name, repo, component, node, jca).Success?
    ensures Resolve(name, repo, component, node, jca).value.client.materials == Some(Symmetric(SecretKey(key, "AES")))
  {
  }

  /** Without a symmetric key, both halves of the pair must decode and parse;
      the pair then holds exactly the keys the runtime parsed. */
  lemma KeyPairBuilt(name: string, repo: Settings, component: Settings, node: Settings, jca: Jca)
    requires Resolve(name, repo, component, node, jca).Success?
    requires SymmetricKey(repo, component).None?
    requires PublicKeySetting(repo, component).Some? || PrivateKeySetting(repo, component).Some?
    ensures var materials := Resolve(name, repo, component, node, jca).value.client.materials;
      && materials.Some? && materials.value.KeyPair?
      && jca.rsaKeyFactory.Available?
      && PublicKeySetting(repo, component).Some? && PrivateKeySetting(repo, component).Some?
      && jca.base64Decode(PublicKeySetting(repo, component).value).Success?
      && jca.generatePublic(jca.base64Decode(PublicKeySetting(repo, component).value).value)
         == Success(materials.value.publicKey)
      && jca.base64Decode(PrivateKeySetting(repo, component).value).Success?
      && jca.generatePrivate(jca.base64Decode(PrivateKeySetting(repo, component).value).value)
         == Success(materials.value.privateKey)
  {
  }

  /** A symmetric key that does not decode, or decodes to no bytes, is refused
      with a key-decoding error: no repository is built with partial materials. */
  lemma SymmetricKeyRefused(name: string, repo: Settings, component: Settings, node: Settings, jca: Jca,
                            b64: string)
    requires repo.bucket.Some? || component.bucket.Some?
    requires SymmetricKey(repo, component) == Some(b64)
    requires PublicKeySetting(repo, component).None? && PrivateKeySetting(repo, component).None?
    requires jca.maxAesKeyLength >= 256
    requires jca.base64Decode(b64).Failure? || jca.base64Decode(b64) == Success([])
    ensures Resolve(name, repo, component, node, jca)
         == Failure(RepositoryException(name, KeyDecoding(
              if jca.base64Decode(b64).Failure? then jca.base64Decode(b64).error else "Empty key")))
  {
  }

  /** With no symmetric key, an available RSA key factory and both halves
      decoding and parsing, the repository encrypts with exactly that pair. */
  lemma KeyPairAccepted(name: string, repo: Settings, component: Settings, node: Settings, jca: Jca,
                        publicKey: PublicKey, privateKey: PrivateKey)
    requires repo.bucket.Some? || component.bucket.Some?
    requires SymmetricKey(repo, component).None?
    requires jca.maxAesKeyLength >= 256
    requires jca.rsaKeyFactory.Available?
    requires PublicHalf(name, PublicKeySetting(repo, component), jca) == Success(publicKey)
    requires PrivateHalf(name, PrivateKeySetting(repo, component), jca) == Success(privateKey)
    ensures Resolve(name, repo, component, node, jca).Success?
    ensures Resolve(name, repo, component, node, jca).value.client.materials == Some(KeyPair(publicKey, privateKey))
  {
  }

  /** Only one half of a key pair, with no symmetric key, never yields a repository. */
  lemma HalfKeyPairFails(name: string, repo: Settings, component: Settings, node: Settings, jca: Jca)
    requires SymmetricKey(repo, component).None?
    requires PublicKeySetting(repo, component).Some? != PrivateKeySetting(repo, component).Some?
    ensures Resolve(name, repo, component, node, jca).Failure?
  {
  }

  /** The debug summary is blind to key material and credentials: repositories
      that differ only in those (and in what is not logged) log the same line. */
  lemma SummaryHidesSecrets(r1: Repository, r2: Repository)
    requires r1.store == r2.store && r1.chunkSize == r2.chunkSize
    requires r1.client.endpoint == r2.client.endpoint && r1.client.protocol == r2.client.protocol
    requires r1.client.region == r2.client.region && r1.client.maxRetries == r2.client.maxRetries
    requires r1.client.materials.Some? == r2.client.materials.Some?
    ensures Summary(r1) == Summary(r2)
  {
  }

  /** The debug line reports client-side encryption exactly when some
      client-side key is set in either tier. */
  lemma SummaryReportsKeys(name: string, repo: Settings, component: Settings, node: Settings, jca: Jca)
    requires Resolve(name, repo, component, node, jca).Success?
    ensures Summary(Resolve(name, repo, component, node, jca).value).clientSideEncryption
            <==> AnyKey(SymmetricKey(repo, component), PublicKeySetting(repo, component),
                        PrivateKeySetting(repo, component))
  {
  }
}

=== FILE: settings.dfy ===
/** The settings the repository constructor reads, one record per settings
    tier. Values are already typed: parsing of booleans, integers and byte
    sizes belongs to the settings library and is not part of this model. An
    absent field is a setting that is not set (`null`); a present empty string
    is a setting that is set to "". */
module RepositorySettings {
  import opened Wrappers

  /** A byte count (`ByteSizeValue`). */
  type ByteSize = nat

  const Megabyte: ByteSize := 1024 * 1024

  /** One tier of settings, keyed by the setting names of the repository. */
  datatype Settings = Settings(
    bucket: Option<string>,                    // bucket
    region: Option<string>,                    // region
    cloudAwsRegion: Option<string>,            // cloud.aws.region
    endpoint: Option<string>,                  // endpoint
    protocol: Option<string>,                  // protocol
    accessKey: Option<string>,                 // access_key
    secretKey: Option<string>,                 // secret_key
    symmetricKey: Option<string>,              // client_side_encryption_key.symmetric
    publicKey: Option<string>,                 // client_side_encryption_key.public
    privateKey: Option<string>,                // client_side_encryption_key.private
    serverSideEncryption: Option<bool>,        // server_side_encryption
    bufferSize: Option<ByteSize>,              // buffer_size
    maxRetries: Option<int>,                   // max_retries
    chunkSize: Option<ByteSize>,               // chunk_size
    compress: Option<bool>,                    // compress
    basePath: Option<string>                   // base_path
  )

  /** A tier in which nothing is set. */
  const NoSettings: Settings := Settings(None, None, None, None, None, None, None, None,
                                         None, None, None, None, None, None, None, None)

  /** Two-tier lookup without a default: the repository's value, else the component's. */
  function Layered<T>(repo: Option<T>, component: Option<T>): (r: Option<T>)
    ensures repo.Some? ==> r == repo
    ensures repo.None? ==> r == component
  {
    repo.OrElse(component)
  }

  /** Two-tier lookup with a default used when neither tier sets the value. */
  function LayeredOr<T>(repo: Option<T>, component: Option<T>, default: T): (r: T)
    ensures repo.Some? ==> r == repo.value
    ensures repo.None? && component.Some? ==> r == component.value
    ensures repo.None? && component.None? ==> r == default
  {
    repo.GetOr(component.GetOr(default))
  }
}

=== FILE: wrappers.dfy ===
/** Optional values and failure-compatible results used throughout the model.
    `Option.None` stands for a Java `null` (an unset setting), and `Result.Failure`
    for an exception that ends repository construction. */
module Wrappers {

  /** A possibly absent value; `None` plays the role of `null`. */
  datatype Option<+T> = None | Some(value: T) {

    /** The value, or `default` when absent (the typed `get(key, default)` lookups). */
    function GetOr(default: T): T {
      match this
      case Some(v) => v
      case None => default
    }

    /** This value when present, otherwise `fallback`: the two-tier
        `get(key, fallbackValue)` lookup, with the receiver as the first tier. */
    function OrElse(fallback: Option<T>): (r: Option<T>)
      ensures r.Some? <==> Some? || fallback.Some?
      ensures Some? ==> r == this
      ensures None? ==> r == fallback
    {
      match this
      case Some(_) => this
      case None => fallback
    }
  }

  /** Either a value or the error that stopped the computation. */
  datatype Result<+R, +E> = Success(value: R) | Failure(error: E) {

    predicate IsFailure() {
      Failure?
    }

    function PropagateFailure<U>(): Result<U, E>
      requires Failure?
    {
      Failure(error)
    }

    function Extract(): R
      requires Success?
    {
      value
    }
  }
}
